=== FILE: README.md ===
# Tennis game simulation in Dafny

A model of the simulation core of a two-player arcade tennis game, written in C on
top of Allegro (`game.c`). Two paddles are each confined to one half of a
960x540 field. Several balls bounce between the left and right edges. A ball
that leaves through the top edge gives player 1 a point, and one that leaves
through the bottom edge gives player 2 a point. A new ball spawns every 300
ticks at one of four corners, visited round-robin. The match is finished once
either player has 2 points.

The model is purely functional. An `Entity` is an immutable rectangle with a
velocity. A `GameState` holds two paddles, a sequence of balls, two scores,
the spawn countdown and the spawn cursor. The timer case of the event loop
becomes `Game.Tick(state, heldKeys)` and keeps the code's order:

1. countdown;
2. scoring pass;
3. spawn check;
4. ball motion, including a ball spawned in this tick;
5. paddle motion and edge reflection;
6. half-field confinement;
7. damping;
8. growth;
9. acceleration from the held keys.

The hit-key case becomes `Game.Hit(state, player)`.

Modules:

- `Geometry` (geometry.dfy): the entity, the overlap test, motion, and the two reflection rules.
- `Paddles` (paddles.dfy): damping, confinement, growth, acceleration, and one tick of each paddle.
- `Balls` (balls.dfy): the spawn corners and cursor, ball creation, the scoring pass, and ball motion.
- `Game` (game.dfy): the state, the initial state, `Tick`, `Hit`, the win predicate, runs of events, and their invariants.
- `Findings` (findings.dfy): two defects, each modelled as written.

Inputs that come from outside the simulation are parameters:

- the keyboard state sampled each tick is `Paddles.HeldKeys`;
- a key press of E or O is `Game.Event.HitKey`.

`int *= 0.9` is modelled as truncation toward zero of 9d/10, with the sign
handled explicitly. Integers are unbounded.

Notes on what the timer case of `game.c` does:

- The countdown is reset only inside the spawn branch (game.c:292). The code
  guards a spawn with "at most 12 live balls", so at 12 balls it still spawns
  and writes a 13th slot, and only at 13 does it skip (see Findings).
  `Game.Tick` uses the corrected guard "fewer than 12". In the model, a spawn
  skipped at countdown 0 because all 12 slots are taken lets the countdown
  go negative, and spawning never resumes (`Game.SpawningStalls`).
- Acceleration from the keys comes last in the tick, after damping. It takes
  effect at the next tick's move.
- The simulation keeps running after the match is finished. Only the drawing
  changes, and that is not modelled.
- The cursor starts at 2, so the second ball spawns on the 300th tick at the
  bottom-left corner, heading up (`Game.SecondBallSpawn`).
- A 15x15 ball at (460, 460) does not collide with a paddle at (480, 470),
  because its right edge is 475. A hit therefore leaves it unchanged
  (`Game.HitNeedsOverlap`).
- The removal loop does not compact the ball array (see Findings). The model
  removes exactly the scoring balls.

## Model

| member | source | states |
|---|---|---|
| Geometry.Collide | game.c:45-60 | For rectangles of non-negative size, the test holds iff the closed rectangles intersect: the larger left edge is not beyond the smaller right edge, and likewise vertically |
| Geometry.CollideSymmetric | game.c:45-60 | The overlap test does not depend on argument order |
| Geometry.CollideWhenTouching | game.c:45-60 | Rectangles that only touch along a vertical edge collide, because every rejection test is strict |
| Geometry.CollideHasCommonPoint | game.c:45-60 | Colliding rectangles share the point (max of left edges, max of top edges) |
| Geometry.CommonPointCollides | game.c:45-60 | Rectangles with any common point collide |
| Geometry.Move | game.c:63-66 | Only the position changes, and it moves by exactly the velocity |
| Geometry.MoveReversible | game.c:63-66 | Moving and then moving back with negated velocity restores the position |
| Geometry.CornerCollision | game.c:88-122 | Size unchanged and speed magnitudes kept. An entity inside the field is returned unchanged. If the size fits, each coordinate is clamped into the field, and an axis's velocity is negated iff that axis was corrected |
| Geometry.CornerCollisionKeepsInField | game.c:88-122 | An entity whose size fits the field ends inside it |
| Geometry.CornerCollisionIdempotent | game.c:88-122 | Reflecting twice equals reflecting once |
| Geometry.CornerCollisionOversized | game.c:91-113 | An entity taller than the field ends at y = 0 and still out of the field. When the bottom check fires, dy is negated twice, so the size precondition is necessary |
| Geometry.CornerCollisionTooWide | game.c:99-142 | An entity wider than the field ends at x = 0 and still out of the field. When the right check fires, dx is negated twice, so the size precondition is necessary horizontally too. The ball reflection also ends at x = 0 |
| Geometry.BallCornerCollision | game.c:124-142 | Only x and dx can change, and the magnitude of dx is kept. A ball between the side edges is unchanged. Otherwise x is clamped between the side edges and dx is negated iff x was corrected |
| Geometry.CornerCollisionHorizontalIsBall | game.c:99-142 | The horizontal part of the paddle reflection coincides with the ball reflection |
| Paddles.Damp | game.c:337-340 | The result is 9d/10 truncated toward zero: same sign as d, and the largest magnitude not above 9abs(d)/10 |
| Paddles.DampOdd | game.c:337-340 | Damping commutes with negation |
| Paddles.DampShrinks | game.c:337-340 | Damping never increases a speed, strictly shrinks a non-zero one, and never flips its sign |
| Paddles.DampEntity | game.c:337-340 | Each velocity component becomes its damped value (9/10, truncated toward zero), so neither grows in magnitude. Position and size are unchanged |
| Paddles.ConfineLower | game.c:323-328 | Player 1's y becomes max(y, 270). dy is negated iff y changed. Nothing else changes |
| Paddles.ConfineUpper | game.c:329-335 | Player 2's bottom edge becomes min(bottom, 270). dy is negated iff y changed. Nothing else changes |
| Paddles.Grow | game.c:346-352 | Width and height grow by 2 exactly when P is held. Nothing else changes |
| Paddles.Accelerate | game.c:354-386 | Each held key adds plus or minus 2 to its velocity component, and opposite keys cancel. Only the velocity changes |
| Paddles.DampThenAccelerateBounded | game.c:337-386 | Speeds of at most 20 stay at most 20 after damping and acceleration |
| Paddles.Steer | game.c:337-386 | The velocity half of a paddle tick: the position is kept, the size grows by 2 exactly when P is held, and each velocity component becomes its damped value plus ±2 per held key, so damping comes before acceleration. A bounded speed stays bounded |
| Paddles.LowerPaddleTick | game.c:311-386 | If the size fits the field: x becomes x + dx clamped to the side edges, and y becomes y + dy clamped into the field, then raised to at least 270. Each velocity component is negated once per correction of its axis, then damped, then changed by ±2 per held key. In every case y ends >= 270 and the size grows by 2 exactly when P is held. If the width fits, the extent before this tick's growth stays between the side edges, and growth can push the right edge at most 2 past 960. A bounded speed stays bounded |
| Paddles.UpperPaddleTick | game.c:311-386 | If the size fits the field: x becomes x + dx clamped to the side edges, and y becomes y + dy clamped into the field, then lowered so that the bottom edge is at most 270. Each velocity component is negated once per correction of its axis, then damped, then changed by ±2 per held key. In every case the bottom edge ends at or above 270 plus this tick's growth, and the size grows by 2 exactly when P is held. If the width fits, the extent before this tick's growth stays between the side edges, and growth can push the right edge at most 2 past 960. A bounded speed stays bounded |
| Balls.CreateBall | game.c:68-81 | The ball is 15x15 at the given position, with dx = dy of magnitude 4, and moves down iff the direction is BOTTOM |
| Balls.NextSpawnIndex | game.c:295-298 | The cursor advances as (i + 1) mod 4 and stays in 0..3 |
| Balls.SpawnCursorCycles | game.c:295-298 | Four advances visit each of the four corners once and return the cursor to its start |
| Balls.SpawnedBall | game.c:282-290 | The spawned ball sits on its corner and moves down iff the cursor is below 2, iff the corner is on the top edge |
| Balls.ScorePass | game.c:260-278 | Player 1 gains one point per ball through the top, and player 2 one per ball through the bottom; the top test wins. Exactly those balls are removed, and every other ball is kept with its multiplicity. points1 + points2 + ball count is invariant |
| Balls.ScorePassKeepsInPlay | game.c:260-278 | A pass over balls that are all in play changes nothing |
| Balls.ExitOf | game.c:264-274 | A ball is through the top iff its bottom edge is above 0. It is through the bottom iff it is not through the top and its top edge is below 540. Otherwise it is in play, which is iff its top edge lies in [-height, 540] |
| Balls.MoveBall | game.c:301-308 | A ball moves vertically by dy, unhindered, and its size and speed magnitude are kept. If its width fits, x becomes x + dx clamped to [0, 960 - width], and dx is negated iff the clamp corrected it |
| Balls.MoveBalls | game.c:302-308 | Every live ball, in order, takes exactly one MoveBall step, and no ball is added or dropped |
| Game.Initial | game.c:174-216 | The state is valid and not finished, with one ball on the top-right corner heading down. The cursor is 2 and the countdown 300. Player 1 is the 50x50 paddle at (480, 470) and player 2 the 50x50 paddle at (480, 20), both at rest and each inside its own half. Both scores are 0 |
| Game.SpawnIf | game.c:284-298 | When it fires, the corner's ball is appended, the countdown is reset and the cursor advances. Otherwise nothing changes |
| Game.SpawnStep | game.c:280-299 | The ball count never exceeds 12. A ball is appended exactly when the countdown is 0 and a slot is free |
| Game.ScoreStep | game.c:258-278 | The countdown drops by 1. Player 1 gains exactly the number of balls through the top, and player 2 the number through the bottom. The balls in play are kept with their multiplicity and the others removed, so points + ball count is invariant. Nothing else changes |
| Game.MoveBallsKeepsSized | game.c:301-308 | After motion, every ball is still 15x15 and lies between the side edges |
| Game.BallPhase | game.c:257-308 | The state stays valid. Each player gains exactly the number of balls that left through their edge. The surviving balls, each moved once, come first in order. The countdown drops by 1, or is reset to 300 only by a spawn at 1. A spawn happens iff the countdown is 1 and a slot is free after the scoring pass. A spawn advances the cursor and appends the corner's ball, already moved once |
| Game.IsFinished | game.c:245-247 | The match is finished iff the leading score has reached 2 |
| Game.Tick | game.c:257-389 | The state stays valid, scores never decrease, and a finished match stays finished. Player 1 ends at y >= 270, and player 2's bottom edge at or above 270 plus growth. The ball part is exactly BallPhase. Each paddle takes exactly one LowerPaddleTick or UpperPaddleTick step with that player's keys |
| Game.TickKeepsSpeedBounded | game.c:311-386 | Paddle speeds bounded by 20 stay bounded |
| Game.TickNeverShrinksPaddles | game.c:346-352 | Paddle sizes never decrease |
| Game.Reverse | game.c:406-407 | Both velocity components are negated and nothing else changes |
| Game.Hit | game.c:395-410 | Exactly the balls colliding with the hitting player's paddle have their velocity reversed. No ball moves, and paddles, scores, countdown and cursor are unchanged |
| Game.HitTwiceRestores | game.c:395-410 | Two hits by the same player with no tick between them undo each other |
| Game.HitNeedsOverlap | game.c:401-409 | A ball left of the paddle is not reversed, and a ball overlapping it is |
| Game.HitKeepsValid | game.c:395-410 | A hit keeps the state valid |
| Game.Step | game.c:250-417 | Handling one timer or hit event keeps the state valid |
| Game.Run | game.c:250-417 | Any sequence of events keeps the state valid |
| Game.RunKeepsFinished | game.c:245-247 | Scores never decrease over any run of events, so a finished match stays finished |
| Game.CountdownReachesOne | game.c:258-299 | From countdown c >= 1, after c - 1 ticks, with any hits interleaved, the countdown is 1. No spawn has happened and the ball count has not grown |
| Game.SpawningStalls | game.c:258-299 | Once the countdown is at or below 0 it is never reset, the cursor never moves, and the ball count never grows |
| Game.BottomLeftSpawn | game.c:281-308 | A tick at countdown 1 with the cursor at 2 and a free slot spawns a ball at the bottom-left corner heading up. In the same tick it moves and reflects off the left edge, ending at (0, 536) with velocity (4, -4), and the cursor moves to 3 |
| Game.SecondBallSpawn | game.c:186-299 | From the initial state, after 299 ticks with any hits interleaved, the 300th tick spawns the second ball at the bottom-left corner heading up |
| Findings.SpawnStepAsWritten | game.c:281-299 | Under the guard as written, whenever the countdown is 0 and at most 12 balls are live, the corner's ball is appended, the countdown is reset to 300 and the cursor advances. Otherwise nothing changes |
| Findings.SpawnGuardAsWrittenOverfills | game.c:281-293 | With 12 live balls at countdown 0, the guard as written spawns a 13th ball, which does not fit the slots. The corrected step changes nothing |
| Findings.SpawnGuardsDiffer | game.c:281 | The guards disagree exactly at countdown 0 with all 12 slots taken |
| Findings.RemovalLoopAsWritten | game.c:261-278 | The removal loop as written. No ball changes slot, a slot only goes from live to freed, and slots before the start index are untouched. The count never grows, and points + count is invariant |
| Findings.RemovalLoopAsWrittenLosesBalls | game.c:261-278 | Each removal pushes the last ball in range out of the loop unexamined. [gone, playing] leaves a freed ball in range and drops the live one. [gone, gone] scores 1 instead of 2. [gone, gone, playing] scores 2 but loses the ball in play. The corrected pass does none of these |

## Left out

- Allegro start-up, the display, timer and event queue, the keyboard-state query, and quitting by ESC or closing the window (game.c:146-171, 249-256, 343, 392-393, 414-421, 453-460). These are I/O and foreign calls. Held keys and hit keys are plain inputs.
- All drawing: balls, paddles, scores, and the win banner (game.c:218-243, 423-450). It is display only. The banner shows the same "player 1 won" text in both branches and tests a stale threshold of 10.
- `must_init` and its `printf`, which also lacks its argument (game.c:18-22). It is I/O.
- `malloc` and `free` (game.c:69, 83-85). A ball is a value in a sequence.
- The undefined behaviour of the non-compacting removal loop, from the motion loop of the same tick on (game.c:304): a freed ball left in range is moved, and a spawn (game.c:290) can overwrite the slot of a live ball that fell out of range. `Findings.RemovalLoopAsWritten` models the loop only up to its end.
- C `int` overflow. Integers are unbounded.
- Paddles.Damp: models `*= 0.9` as exact truncation toward zero of 9d/10, not as the IEEE double product. The two agree for the small velocities involved.
- Paddles.LowerPaddleTick: keeps player 1 inside the bottom edge only while its height is at most 270. Growth is unbounded in the code, and a taller paddle sticks out.
- Key presses other than E and O do nothing in the simulation, so they are not events of the model.

## Findings

| source | as written | input that shows it | evidently intended | confidence | as-written member | corrected member |
|---|---|---|---|---|---|---|
| game.c:281 | spawn when `ball_count <= 12` | 12 live balls when the countdown reaches 0: the new ball is written to slot 12 of a 12-slot array | spawn only when `ball_count < MAX_BALL_COUNT` | high; not executed | Findings.SpawnGuardAsWrittenOverfills | Game.SpawnStep |
| game.c:261-278 | frees `balls[i]` in place and lowers `ball_count`, without moving the later balls down | a ball through the top followed by a ball in play: the freed ball stays in slot 0 and the live ball falls out of range; two balls through the top: only one point is scored; two balls through the top then one in play: the live ball is lost | remove exactly the scoring balls, compacting the rest | high; not executed | Findings.RemovalLoopAsWrittenLosesBalls | Balls.ScorePass |

=== FILE: balls.dfy ===
/**
 The ball lifecycle: the four spawn corners visited round-robin, creation of
 a ball, the scoring pass that removes every ball that has left the field
 through the top or the bottom edge, and the per-tick motion of the balls.
 */
module Balls {
  import opened Geometry

  const BallSpeed: int := 4
  const BallSize: int := 15
  const MaxBallCount: int := 12

  /** Ticks between spawns: 60 ticks per second times 5 seconds. */
  const SpawnInterval: int := 300

  datatype Position = Position(x: int, y: int)

  /** The vertical sense a new ball starts in. */
  datatype Direction = Top | Bottom {
    function Sign(): int {
      if Top? then -1 else 1
    }
  }

  /** The spawn corners: top left, top right, bottom left, bottom right. */
  const Spawns: seq<Position> := [
    Position(0, 0),
    Position(DisplayWidth, 0),
    Position(0, DisplayHeight),
    Position(DisplayWidth, DisplayHeight)
  ]

  predicate ValidSpawnIndex(i: int) {
    0 <= i < |Spawns|
  }

  /** A 15x15 ball at pos moving diagonally, both speed components carrying
      the sign of the direction. */
  function CreateBall(pos: Position, dir: Direction): (r: Entity)
    ensures r.x == pos.x && r.y == pos.y
    ensures r.width == BallSize && r.height == BallSize
    ensures r.dx == r.dy && Abs(r.dy) == BallSpeed
    ensures r.dy > 0 <==> dir == Bottom
  {
    Entity(pos.x, pos.y, dir.Sign() * BallSpeed, dir.Sign() * BallSpeed, BallSize, BallSize)
  }

  /** The first two corners send their balls down, the last two up. */
  function SpawnDirection(i: int): Direction {
    if i < 2 then Bottom else Top
  }

  /** The round-robin cursor over the spawn corners. */
  function NextSpawnIndex(i: int): (r: int)
    requires ValidSpawnIndex(i)
    ensures ValidSpawnIndex(r)
    ensures r == (i + 1) % 4
  {
    if i < 3 then i + 1 else 0
  }

  /** The ball a spawn at cursor i creates: it sits on its corner and heads
      toward the opposing half, down from a top corner and up from a bottom
      corner. */
  function SpawnedBall(i: int): (r: Entity)
    requires ValidSpawnIndex(i)
    ensures r.x == Spawns[i].x && r.y == Spawns[i].y
    ensures r.width == BallSize && r.height == BallSize
    ensures r.dx == r.dy && Abs(r.dy) == BallSpeed
    ensures r.dy > 0 <==> r.y == 0
    ensures r.dy > 0 <==> i < 2
  {
    CreateBall(Spawns[i], SpawnDirection(i))
  }

  /** Four spawns visit the four corners, each once, and bring the cursor
      back. */
  lemma SpawnCursorCycles(i: int)
    requires ValidSpawnIndex(i)
    ensures var n1 := NextSpawnIndex(i);
      var n2 := NextSpawnIndex(n1);
      var n3 := NextSpawnIndex(n2);
      && NextSpawnIndex(n3) == i
      && {i, n1, n2, n3} == {0, 1, 2, 3}
  {
  }

  /** How a ball stands with respect to the top and bottom edges. A ball
      wholly above the top edge scores for player 1; otherwise a ball whose
      top is below the bottom edge scores for player 2; the top test is made
      first. */
  datatype Exit = ThroughTop | ThroughBottom | InPlay

  function ExitOf(b: Entity): (r: Exit)
    ensures r == ThroughTop <==> b.y + b.height < 0
    ensures r == ThroughBottom <==> b.y + b.height >= 0 && b.y > DisplayHeight
    ensures r == InPlay <==> -b.height <= b.y <= DisplayHeight
  {
    if b.y + b.height < 0 then ThroughTop
    else if b.y > DisplayHeight then ThroughBottom
    else InPlay
  }

  /** Number of balls with the given exit. */
  function CountExits(balls: seq<Entity>, k: Exit): (n: nat)
    ensures n <= |balls|
  {
    if |balls| == 0 then 0
    else (if ExitOf(balls[0]) == k then 1 else 0) + CountExits(balls[1..], k)
  }

  /** Balls left after a scoring pass, with both scores. */
  datatype Scored = Scored(balls: seq<Entity>, points1: int, points2: int)

  /** The scoring pass: every ball through the top gives player 1 a point,
      every ball through the bottom gives player 2 a point, and exactly those
      balls are removed. Every other ball is kept, with its multiplicity, so
      the sum of both scores and the number of live balls is unchanged. */
  function ScorePass(balls: seq<Entity>, p1: int, p2: int): (r: Scored)
    ensures r.points1 == p1 + CountExits(balls, ThroughTop)
    ensures r.points2 == p2 + CountExits(balls, ThroughBottom)
    ensures r.points1 + r.points2 + |r.balls| == p1 + p2 + |balls|
    ensures forall b :: b in r.balls ==> ExitOf(b) == InPlay
    ensures forall b :: multiset(r.balls)[b] == (if ExitOf(b) == InPlay then multiset(balls)[b] else 0)
    decreases |balls|
  {
    if |balls| == 0 then Scored([], p1, p2)
    else
      var b := balls[0];
      var rest := ScorePass(balls[1..], p1, p2);
      assert balls == [b] + balls[1..];
      match ExitOf(b)
      case ThroughTop => rest.(points1 := rest.points1 + 1)
      case ThroughBottom => rest.(points2 := rest.points2 + 1)
      case InPlay => rest.(balls := [b] + rest.balls)
  }

  /** A pass over balls that are all in play changes nothing. */
  lemma {:induction false} ScorePassKeepsInPlay(balls: seq<Entity>, p1: int, p2: int)
    requires forall i :: 0 <= i < |balls| ==> ExitOf(balls[i]) == InPlay
    ensures ScorePass(balls, p1, p2) == Scored(balls, p1, p2)
    decreases |balls|
  {
    if |balls| > 0 {
      ScorePassKeepsInPlay(balls[1..], p1, p2);
      assert [balls[0]] + balls[1..] == balls;
    }
  }

  /** One tick of a ball: move, then reflect on the left and right edges.
      Its vertical motion is free, since leaving through the top or bottom
      is how a point is scored. */
  function MoveBall(b: Entity): (r: Entity)
    ensures r.y == b.y + b.dy && r.dy == b.dy
    ensures r.width == b.width && r.height == b.height
    ensures Abs(r.dx) == Abs(b.dx)
    ensures 0 <= b.width <= DisplayWidth ==>
      && r.x == Clamp(b.x + b.dx, 0, DisplayWidth - b.width)
      && (r.x == b.x + b.dx ==> r.dx == b.dx)
      && (r.x != b.x + b.dx ==> r.dx == -b.dx)
    ensures 0 <= b.width <= DisplayWidth ==> 0 <= r.x && r.x + r.width <= DisplayWidth
  {
    BallCornerCollision(Move(b))
  }

  /** Every live ball moves one tick, in order. */
  function MoveBalls(balls: seq<Entity>): (r: seq<Entity>)
    ensures |r| == |balls|
    ensures forall i :: 0 <= i < |balls| ==> r[i] == MoveBall(balls[i])
  {
    seq(|balls|, i requires 0 <= i < |balls| => MoveBall(balls[i]))
  }
}

=== FILE: findings.dfy ===
/**
 Two defects of the frame code, each modelled as written next to the
 corrected definition the rest of the model uses.

 1. The spawn guard admits a spawn when all 12 slots are already taken, so
    the new ball is written to a 13th slot of a 12-slot array. The corrected
    guard is Game.SpawnGuard, used by Game.SpawnStep.

 2. The removal loop frees a scoring ball and lowers the live count, but does
    not move the other balls down: the freed ball stays in its slot, and each
    removal pushes the last ball in range out of the loop, unexamined. The
    corrected pass is Balls.ScorePass.
 */
module Findings {
  import opened Geometry
  import opened Balls
  import opened Game

  /** The spawn guard as written: it compares the live count with 12 using
      "at most" instead of "less than". */
  predicate SpawnGuardAsWritten(countdown: int, count: int) {
    countdown == 0 && count <= 12
  }

  /** The spawn check as written. */
  function SpawnStepAsWritten(s: GameState): (r: GameState)
    requires ValidSpawnIndex(s.spawnIndex)
    ensures SpawnGuardAsWritten(s.countdown, |s.balls|) ==> |r.balls| == |s.balls| + 1
    ensures SpawnGuardAsWritten(s.countdown, |s.balls|) ==>
      && r.balls == s.balls + [SpawnedBall(s.spawnIndex)]
      && r.countdown == SpawnInterval
      && r.spawnIndex == NextSpawnIndex(s.spawnIndex)
    ensures !SpawnGuardAsWritten(s.countdown, |s.balls|) ==> r == s
  {
    SpawnIf(s, SpawnGuardAsWritten(s.countdown, |s.balls|))
  }

  /** With all slots taken, the guard as written still fires and the state
      holds 13 balls, more than there are slots; the corrected spawn check
      leaves the same state unchanged. */
  lemma SpawnGuardAsWrittenOverfills(s: GameState)
    requires Valid(s) && |s.balls| == MaxBallCount && s.countdown == 0
    ensures |SpawnStepAsWritten(s).balls| == MaxBallCount + 1
    ensures !Valid(SpawnStepAsWritten(s))
    ensures SpawnStep(s) == s
  {
  }

  /** The corrected guard only ever fires when the guard as written does,
      and the two disagree exactly when the countdown is zero and every slot
      is taken. */
  lemma SpawnGuardsDiffer(countdown: int, count: int)
    ensures SpawnGuard(countdown, count) ==> SpawnGuardAsWritten(countdown, count)
    ensures SpawnGuardAsWritten(countdown, count) && !SpawnGuard(countdown, count)
        <==> countdown == 0 && count == MaxBallCount
  {
  }

  /** A slot of the ball array: a live ball, or a ball already freed whose
      pointer is still stored there. */
  datatype Slot = Live(ball: Entity) | Freed(ball: Entity)

  /** The state of the removal loop when it stops. */
  datatype LoopEnd = LoopEnd(slots: seq<Slot>, count: int, points1: int, points2: int)

  /** The removal loop as written, from index i on: a scoring ball is freed
      in place and the count drops, and the index advances in every case.
      No ball ever changes slot, the slots already passed are untouched, and
      a slot only ever goes from live to freed. */
  function RemovalLoopAsWritten(slots: seq<Slot>, count: int, i: nat, p1: int, p2: int): (r: LoopEnd)
    requires count <= |slots|
    ensures r.count <= count
    ensures |r.slots| == |slots|
    ensures forall j :: 0 <= j < |slots| ==> r.slots[j].ball == slots[j].ball
    ensures forall j :: 0 <= j < |slots| && r.slots[j].Live? ==> slots[j].Live?
    ensures forall j :: 0 <= j < i && j < |slots| ==> r.slots[j] == slots[j]
    ensures r.points1 + r.points2 + r.count == p1 + p2 + count
    decreases count - i
  {
    if i >= count then LoopEnd(slots, count, p1, p2)
    else
      var b := slots[i].ball;
      match ExitOf(b)
      case ThroughTop => RemovalLoopAsWritten(slots[i := Freed(b)], count - 1, i + 1, p1 + 1, p2)
      case ThroughBottom => RemovalLoopAsWritten(slots[i := Freed(b)], count - 1, i + 1, p1, p2 + 1)
      case InPlay => RemovalLoopAsWritten(slots, count, i + 1, p1, p2)
  }

  /** Counterexamples. With a ball that left through the top followed by one
      in play, the loop leaves the freed ball as the only slot in range and
      drops the ball in play, where the corrected pass keeps exactly the ball
      in play. With two balls through the top, the first removal pushes the
      second out of range before it is examined, so one point is scored
      where the corrected pass scores two. With two balls through the top
      followed by one in play, both points are scored, but the count ends at
      1 and only a freed slot is left in range: the ball in play is lost. */
  lemma RemovalLoopAsWrittenLosesBalls()
    ensures var gone := Entity(0, -20, 0, -4, 15, 15);
            var playing := Entity(100, 100, 4, 4, 15, 15);
            && RemovalLoopAsWritten([Live(gone), Live(playing)], 2, 0, 0, 0).count == 1
            && RemovalLoopAsWritten([Live(gone), Live(playing)], 2, 0, 0, 0).slots[0] == Freed(gone)
            && ScorePass([gone, playing], 0, 0) == Scored([playing], 1, 0)
    ensures var gone := Entity(0, -20, 0, -4, 15, 15);
            && RemovalLoopAsWritten([Live(gone), Live(gone)], 2, 0, 0, 0).points1 == 1
            && ScorePass([gone, gone], 0, 0).points1 == 2
    ensures var gone := Entity(0, -20, 0, -4, 15, 15);
            var playing := Entity(100, 100, 4, 4, 15, 15);
            var three := RemovalLoopAsWritten([Live(gone), Live(gone), Live(playing)], 3, 0, 0, 0);
            && three.points1 == 2 && three.count == 1
            && three.slots[0] == Freed(gone) && three.slots[2] == Live(playing)
            && ScorePass([gone, gone, playing], 0, 0) == Scored([playing], 2, 0)
  {
    var gone := Entity(0, -20, 0, -4, 15, 15);
    var playing := Entity(100, 100, 4, 4, 15, 15);
    assert [gone, playing][1..] == [playing];
    assert [playing][1..] == [];
    assert [gone, gone][1..] == [gone];
    assert [gone][1..] == [];
    assert [gone, gone, playing][1..] == [gone, playing];
  }
}

=== FILE: game.dfy ===
/**
 The match: the whole simulation state, its initial value, one timer tick in
 the frame's fixed order, the hit handler, the win predicate, and runs of
 events with the invariants they keep.
 */
module Game {
  import opened Geometry
  import opened Paddles
  import opened Balls

  /** Points that end the match. */
  const MaxPoints: int := 2

  /** Everything the simulation carries from one event to the next. */
  datatype GameState = GameState(
    player1: Entity,
    player2: Entity,
    balls: seq<Entity>,
    points1: int,
    points2: int,
    countdown: int,
    spawnIndex: int)

  /** What the source keeps true by construction: the spawn cursor indexes
      the spawn table, the live balls fit the 12 slots, every ball is 15x15,
      and the countdown never exceeds its reset value. */
  predicate Valid(s: GameState) {
    && ValidSpawnIndex(s.spawnIndex)
    && |s.balls| <= MaxBallCount
    && BallsSized(s.balls)
    && s.countdown <= SpawnInterval
  }

  predicate BallsSized(balls: seq<Entity>) {
    forall i :: 0 <= i < |balls| ==> balls[i].width == BallSize && balls[i].height == BallSize
  }

  predicate BallsInside(balls: seq<Entity>) {
    forall i :: 0 <= i < |balls| ==> 0 <= balls[i].x && balls[i].x + balls[i].width <= DisplayWidth
  }

  /** Balls drawn from a sequence of 15x15 balls are 15x15. */
  lemma SizedSubset(sub: seq<Entity>, balls: seq<Entity>)
    requires BallsSized(balls)
    requires forall b :: b in sub ==> b in balls
    ensures BallsSized(sub)
  {
    forall i | 0 <= i < |sub|
      ensures sub[i].width == BallSize && sub[i].height == BallSize
    {
      assert sub[i] in balls;
      var j :| 0 <= j < |balls| && balls[j] == sub[i];
    }
  }

  /** Moving keeps every ball 15x15 and leaves each one between the left and
      right edges. */
  lemma MoveBallsKeepsSized(balls: seq<Entity>)
    requires BallsSized(balls)
    ensures BallsSized(MoveBalls(balls)) && BallsInside(MoveBalls(balls))
  {
  }

  /** The match is over once the leading score reaches MaxPoints. */
  function IsFinished(s: GameState): (r: bool)
    ensures r <==> Max(s.points1, s.points2) >= MaxPoints
  {
    s.points1 >= MaxPoints || s.points2 >= MaxPoints
  }

  /** The state at the start of a match: one ball on the top-right corner
      heading down, the spawn cursor on the bottom-left corner, both 50x50
      paddles resting inside their halves, and a full countdown. */
  function Initial(): (s: GameState)
    ensures Valid(s) && !IsFinished(s)
    ensures |s.balls| == 1 && s.balls[0] == SpawnedBall(1) && s.balls[0].dy > 0
    ensures s.spawnIndex == 2 && s.countdown == SpawnInterval
    ensures InField(s.player1) && InField(s.player2)
    ensures s.player1.y >= FieldLimitY && s.player2.y + s.player2.height <= FieldLimitY
    ensures SpeedBounded(s.player1) && SpeedBounded(s.player2)
    ensures s.player1 == Entity(480, 470, 0, 0, 50, 50)
    ensures s.player2 == Entity(480, 20, 0, 0, 50, 50)
    ensures s.points1 == 0 && s.points2 == 0
  {
    var size := 50;
    var first := 1;
    GameState(
      Entity(DisplayWidth / 2, DisplayHeight - size - 20, 0, 0, size, size),
      Entity(DisplayWidth / 2, 20, 0, 0, size, size),
      [CreateBall(Spawns[first], Bottom)],
      0, 0,
      SpawnInterval,
      first + 1)
  }

  /** The corrected capacity guard: spawn when the countdown is exactly zero
      and a slot is free. */
  predicate SpawnGuard(countdown: int, count: int) {
    countdown == 0 && count < MaxBallCount
  }

  /** Appends the ball of the current spawn corner when fire holds, resets
      the countdown and advances the cursor; otherwise changes nothing. */
  function SpawnIf(s: GameState, fire: bool): (r: GameState)
    requires ValidSpawnIndex(s.spawnIndex)
    ensures fire ==> r.balls == s.balls + [SpawnedBall(s.spawnIndex)]
    ensures fire ==> r.countdown == SpawnInterval && r.spawnIndex == NextSpawnIndex(s.spawnIndex)
    ensures !fire ==> r == s
    ensures r.(balls := s.balls, countdown := s.countdown, spawnIndex := s.spawnIndex) == s
  {
    if fire then
      s.(balls := s.balls + [SpawnedBall(s.spawnIndex)],
         countdown := SpawnInterval,
         spawnIndex := NextSpawnIndex(s.spawnIndex))
    else s
  }

  /** The spawn check of a tick. It keeps the state valid, so the ball count
      never exceeds the 12 slots; a ball is added exactly when the guard
      holds. */
  function SpawnStep(s: GameState): (r: GameState)
    requires ValidSpawnIndex(s.spawnIndex) && |s.balls| <= MaxBallCount
    ensures |r.balls| <= MaxBallCount
    ensures ValidSpawnIndex(r.spawnIndex)
    ensures |r.balls| == |s.balls| + 1 <==> SpawnGuard(s.countdown, |s.balls|)
    ensures |r.balls| == |s.balls| <==> !SpawnGuard(s.countdown, |s.balls|)
    ensures SpawnGuard(s.countdown, |s.balls|) ==>
      && r.balls == s.balls + [SpawnedBall(s.spawnIndex)]
      && r.countdown == SpawnInterval
      && r.spawnIndex == NextSpawnIndex(s.spawnIndex)
    ensures !SpawnGuard(s.countdown, |s.balls|) ==> r == s
    ensures r.(balls := s.balls, countdown := s.countdown, spawnIndex := s.spawnIndex) == s
  {
    SpawnIf(s, SpawnGuard(s.countdown, |s.balls|))
  }

  /** The countdown and scoring pass at the start of a tick. */
  function ScoreStep(s: GameState): (r: GameState)
    ensures r.countdown == s.countdown - 1
    ensures r.points1 >= s.points1 && r.points2 >= s.points2
    ensures r.points1 + r.points2 + |r.balls| == s.points1 + s.points2 + |s.balls|
    ensures r.points1 == s.points1 + CountExits(s.balls, ThroughTop)
    ensures r.points2 == s.points2 + CountExits(s.balls, ThroughBottom)
    ensures forall b :: multiset(r.balls)[b] == (if ExitOf(b) == InPlay then multiset(s.balls)[b] else 0)
    ensures forall b :: b in r.balls ==> b in s.balls
    ensures r.(balls := s.balls, points1 := s.points1, points2 := s.points2, countdown := s.countdown) == s
  {
    var scored := ScorePass(s.balls, s.points1, s.points2);
    assert forall b :: b in scored.balls ==> b in multiset(scored.balls);
    s.(countdown := s.countdown - 1,
       balls := scored.balls,
       points1 := scored.points1,
       points2 := scored.points2)
  }

  /** The ball half of a tick: countdown, scoring pass, spawn check, then
      every live ball moves, a ball spawned this tick included. The paddles
      are not touched. */
  function BallPhase(s: GameState): (r: GameState)
    requires Valid(s)
    ensures Valid(r)
    ensures r.player1 == s.player1 && r.player2 == s.player2
    ensures r.points1 >= s.points1 && r.points2 >= s.points2
    ensures r.points1 == s.points1 + CountExits(s.balls, ThroughTop)
    ensures r.points2 == s.points2 + CountExits(s.balls, ThroughBottom)
    // the balls kept by the scoring pass, each moved once, come first
    ensures var kept := ScoreStep(s).balls;
      |kept| <= |r.balls| && r.balls[..|kept|] == MoveBalls(kept)
    ensures BallsInside(r.balls)
    // the countdown drops by one, and is reset only by a spawn at zero
    ensures r.countdown == SpawnInterval || r.countdown == s.countdown - 1
    ensures r.countdown == SpawnInterval ==> s.countdown == 1
    ensures s.countdown == 1 && |s.balls| < MaxBallCount ==> r.countdown == SpawnInterval
    // the spawn check sees the ball count left by the scoring pass
    ensures r.countdown == SpawnInterval <==> s.countdown == 1 && |ScoreStep(s).balls| < MaxBallCount
    // a spawn appends the corner's ball, moved once, and advances the cursor
    ensures r.countdown == SpawnInterval ==>
      && r.spawnIndex == NextSpawnIndex(s.spawnIndex)
      && |r.balls| >= 1
      && r.balls[|r.balls| - 1] == MoveBall(SpawnedBall(s.spawnIndex))
    ensures r.countdown != SpawnInterval ==> r.spawnIndex == s.spawnIndex
    // each removed ball became exactly one point
    ensures r.points1 + r.points2 + |r.balls|
         == s.points1 + s.points2 + |s.balls| + (if r.countdown == SpawnInterval then 1 else 0)
  {
    var scored := ScoreStep(s);
    assert |scored.balls| <= |s.balls|;
    SizedSubset(scored.balls, s.balls);
    var spawned := SpawnStep(scored);
    assert BallsSized(spawned.balls);
    var balls := MoveBalls(spawned.balls);
    MoveBallsKeepsSized(spawned.balls);
    spawned.(balls := balls)
  }

  /** One timer tick, in the frame's order: the ball half of the tick, then
      each paddle's motion, reflection, confinement, damping, growth and
      acceleration. */
  function Tick(s: GameState, keys: HeldKeys): (r: GameState)
    requires Valid(s)
    ensures Valid(r)
    ensures r.points1 >= s.points1 && r.points2 >= s.points2
    ensures IsFinished(s) ==> IsFinished(r)
    ensures r.player1.y >= FieldLimitY
    ensures r.player2.y + r.player2.height <= FieldLimitY + Growth * Indicator(keys.grow)
    ensures r.(player1 := s.player1, player2 := s.player2) == BallPhase(s)
    ensures r.player1 == LowerPaddleTick(s.player1, keys.player1, keys.grow)
    ensures r.player2 == UpperPaddleTick(s.player2, keys.player2, keys.grow)
  {
    var moved := BallPhase(s);
    moved.(player1 := LowerPaddleTick(moved.player1, keys.player1, keys.grow),
           player2 := UpperPaddleTick(moved.player2, keys.player2, keys.grow))
  }

  /** The paddle speeds stay within MaxPaddleSpeed from tick to tick. */
  lemma TickKeepsSpeedBounded(s: GameState, keys: HeldKeys)
    requires Valid(s) && SpeedBounded(s.player1) && SpeedBounded(s.player2)
    ensures SpeedBounded(Tick(s, keys).player1) && SpeedBounded(Tick(s, keys).player2)
  {
  }

  /** A paddle only ever grows. */
  lemma TickNeverShrinksPaddles(s: GameState, keys: HeldKeys)
    requires Valid(s)
    ensures Tick(s, keys).player1.width >= s.player1.width
    ensures Tick(s, keys).player1.height >= s.player1.height
    ensures Tick(s, keys).player2.width >= s.player2.width
    ensures Tick(s, keys).player2.height >= s.player2.height
  {
  }

  datatype Player = Player1 | Player2

  function PaddleOf(s: GameState, who: Player): Entity {
    if who == Player1 then s.player1 else s.player2
  }

  /** A ball hit back: both velocity components negated. */
  function Reverse(b: Entity): (r: Entity)
    ensures r.(dx := b.dx, dy := b.dy) == b
    ensures r.dx + b.dx == 0 && r.dy + b.dy == 0
  {
    b.(dx := -b.dx, dy := -b.dy)
  }

  /** The hit key of a player (E for player 1, O for player 2) reverses every
      ball that collides with that player's paddle. No ball moves, the
      other balls keep their velocity, and paddles, scores, countdown and
      cursor are untouched. */
  function Hit(s: GameState, who: Player): (r: GameState)
    ensures r.(balls := s.balls) == s
    ensures |r.balls| == |s.balls|
    ensures forall i :: 0 <= i < |s.balls| ==>
      && r.balls[i].(dx := s.balls[i].dx, dy := s.balls[i].dy) == s.balls[i]
      && (Collide(PaddleOf(s, who), s.balls[i]) ==> r.balls[i] == Reverse(s.balls[i]))
      && (!Collide(PaddleOf(s, who), s.balls[i]) ==> r.balls[i] == s.balls[i])
  {
    var paddle := PaddleOf(s, who);
    s.(balls := seq(|s.balls|, i requires 0 <= i < |s.balls| =>
                      if Collide(paddle, s.balls[i]) then Reverse(s.balls[i]) else s.balls[i]))
  }

  /** Hitting twice without a tick in between undoes the first hit: the
      collision test depends on positions only, and positions do not move. */
  lemma HitTwiceRestores(s: GameState, who: Player)
    ensures Hit(Hit(s, who), who) == s
  {
    var r := Hit(Hit(s, who), who);
    assert r.balls == s.balls;
  }

  /** A 15x15 ball at (460, 460) lies left of a paddle at (480, 470): its
      right edge is 475, so the two do not collide and a hit by player 1
      leaves the ball as it was. A ball at (470, 460) reaches the paddle and
      is reversed. */
  lemma HitNeedsOverlap(s: GameState)
    requires s.player1 == Entity(480, 470, 0, 0, 50, 50)
    requires s.balls == [Entity(460, 460, 4, 4, 15, 15), Entity(470, 460, 4, 4, 15, 15)]
    ensures Hit(s, Player1).balls == [Entity(460, 460, 4, 4, 15, 15), Entity(470, 460, -4, -4, 15, 15)]
  {
  }

  lemma HitKeepsValid(s: GameState, who: Player)
    requires Valid(s)
    ensures Valid(Hit(s, who))
  {
  }

  /** The events the simulation reacts to: a timer tick with the keyboard
      state sampled for it, or a hit key pressed. */
  datatype Event = TimerTick(held: HeldKeys) | HitKey(who: Player)

  function Step(s: GameState, ev: Event): (r: GameState)
    requires Valid(s)
    ensures Valid(r)
  {
    match ev
    case TimerTick(held) => Tick(s, held)
    case HitKey(who) => HitKeepsValid(s, who); Hit(s, who)
  }

  function Run(s: GameState, evs: seq<Event>): (r: GameState)
    requires Valid(s)
    ensures Valid(r)
    decreases |evs|
  {
    if |evs| == 0 then s else Run(Step(s, evs[0]), evs[1..])
  }

  /** Number of timer ticks among the events. */
  function TimerCount(evs: seq<Event>): (n: nat)
    ensures n <= |evs|
  {
    if |evs| == 0 then 0
    else (if evs[0].TimerTick? then 1 else 0) + TimerCount(evs[1..])
  }

  /** Scores never decrease, so a finished match stays finished whatever
      events follow. */
  lemma {:induction false} RunKeepsFinished(s: GameState, evs: seq<Event>)
    requires Valid(s)
    ensures Run(s, evs).points1 >= s.points1 && Run(s, evs).points2 >= s.points2
    ensures IsFinished(s) ==> IsFinished(Run(s, evs))
    decreases |evs|
  {
    if |evs| > 0 {
      RunKeepsFinished(Step(s, evs[0]), evs[1..]);
    }
  }

  /** Starting from a positive countdown, the ticks before it reaches one
      neither spawn nor move the cursor, and the countdown drops by exactly
      one per tick: after countdown - 1 ticks it stands at one. */
  lemma {:induction false} CountdownReachesOne(s: GameState, evs: seq<Event>)
    requires Valid(s) && s.countdown >= 1
    requires TimerCount(evs) == s.countdown - 1
    ensures Run(s, evs).countdown == 1
    ensures Run(s, evs).spawnIndex == s.spawnIndex
    ensures |Run(s, evs).balls| <= |s.balls|
    decreases |evs|
  {
    if |evs| > 0 {
      var t := Step(s, evs[0]);
      if evs[0].TimerTick? {
        assert t.countdown == s.countdown - 1;
      }
      CountdownReachesOne(t, evs[1..]);
    }
  }

  /** A countdown at or below zero is never reset again: no spawn ever
      happens, the cursor stays put and the number of balls never grows. */
  lemma {:induction false} SpawningStalls(s: GameState, evs: seq<Event>)
    requires Valid(s) && s.countdown <= 0
    ensures Run(s, evs).countdown <= s.countdown
    ensures Run(s, evs).spawnIndex == s.spawnIndex
    ensures |Run(s, evs).balls| <= |s.balls|
    decreases |evs|
  {
    if |evs| > 0 {
      SpawningStalls(Step(s, evs[0]), evs[1..]);
    }
  }

  /** A tick at countdown one with the cursor on the bottom-left corner and
      a free slot spawns there a ball heading up; within the same tick it
      moves to (-4, 536) and is reflected off the left edge. */
  lemma BottomLeftSpawn(s: GameState, keys: HeldKeys)
    requires Valid(s) && s.countdown == 1 && s.spawnIndex == 2 && |s.balls| < MaxBallCount
    ensures Tick(s, keys).countdown == SpawnInterval
    ensures Tick(s, keys).spawnIndex == 3
    ensures var balls := Tick(s, keys).balls;
      |balls| >= 1 && balls[|balls| - 1] == Entity(0, 536, 4, -4, 15, 15)
  {
    assert SpawnedBall(2) == Entity(0, DisplayHeight, -4, -4, 15, 15);
    assert MoveBall(SpawnedBall(2)) == Entity(0, 536, 4, -4, 15, 15);
  }

  /** From the initial state, whatever hits and keys come first, the 300th
      tick spawns the second ball on the bottom-left corner heading up. */
  lemma SecondBallSpawn(evs: seq<Event>, keys: HeldKeys)
    requires TimerCount(evs) == SpawnInterval - 1
    ensures Tick(Run(Initial(), evs), keys).countdown == SpawnInterval
    ensures Tick(Run(Initial(), evs), keys).spawnIndex == 3
    ensures var balls := Tick(Run(Initial(), evs), keys).balls;
      |balls| >= 1 && balls[|balls| - 1] == Entity(0, 536, 4, -4, 15, 15)
  {
    CountdownReachesOne(Initial(), evs);
    BottomLeftSpawn(Run(Initial(), evs), keys);
  }

}

=== FILE: geometry.dfy ===
/**
 Geometry of the playing field: the moving rectangle that every paddle and
 ball is made of, the rectangle overlap test, motion by one tick, and the two
 edge-reflection rules (all four edges for paddles, left and right only for
 balls).
 */
module Geometry {

  /** The field is the whole display, in pixels. */
  const DisplayWidth: int := 960
  const DisplayHeight: int := 540

  /** An axis-aligned rectangle with top-left corner (x, y), a velocity
      (dx, dy) in pixels per tick, and a size width x height. */
  datatype Entity = Entity(x: int, y: int, dx: int, dy: int, width: int, height: int)

  function Abs(n: int): nat {
    if n < 0 then -n else n
  }

  function Min(a: int, b: int): int {
    if a <= b then a else b
  }

  function Max(a: int, b: int): int {
    if a <= b then b else a
  }

  /** The point of [lo, hi] nearest to v. */
  function Clamp(v: int, lo: int, hi: int): int
    requires lo <= hi
  {
    Max(lo, Min(v, hi))
  }

  /** The point (px, py) lies in the closed rectangle of e, borders included. */
  predicate Contains(e: Entity, px: int, py: int) {
    e.x <= px <= e.x + e.width && e.y <= py <= e.y + e.height
  }

  /** The entity lies entirely inside the field. */
  predicate InField(e: Entity) {
    0 <= e.x && e.x + e.width <= DisplayWidth && 0 <= e.y && e.y + e.height <= DisplayHeight
  }

  /** The entity's size fits inside the field. */
  predicate FitsField(e: Entity) {
    0 <= e.width <= DisplayWidth && 0 <= e.height <= DisplayHeight
  }

  /** Overlap test of two rectangles. Each rejection test is strict, so
      rectangles that only share an edge or a corner collide. For rectangles
      of non-negative size this is exactly "the closed rectangles intersect":
      the larger of the two left edges is not beyond the smaller of the two
      right edges, and likewise vertically. */
  function Collide(a: Entity, b: Entity): (r: bool)
    ensures 0 <= a.width && 0 <= b.width && 0 <= a.height && 0 <= b.height ==>
      (r <==> (Max(a.x, b.x) <= Min(a.x + a.width, b.x + b.width)
               && Max(a.y, b.y) <= Min(a.y + a.height, b.y + b.height)))
  {
    if a.x > b.x + b.width then false
    else if a.x + a.width < b.x then false
    else if a.y > b.y + b.height then false
    else if a.y + a.height < b.y then false
    else true
  }

  /** The overlap test does not depend on the order of its arguments. */
  lemma CollideSymmetric(a: Entity, b: Entity)
    ensures Collide(a, b) == Collide(b, a)
  {
  }

  /** Rectangles whose vertical extents meet and whose horizontal extents
      only touch (a's left edge is b's right edge) collide. */
  lemma CollideWhenTouching(a: Entity, b: Entity)
    requires a.x == b.x + b.width && 0 <= a.width && 0 <= b.width
    requires Max(a.y, b.y) <= Min(a.y + a.height, b.y + b.height)
    ensures Collide(a, b)
  {
  }

  /** Colliding rectangles of non-negative size have a point in common... */
  lemma CollideHasCommonPoint(a: Entity, b: Entity)
    requires 0 <= a.width && 0 <= b.width && 0 <= a.height && 0 <= b.height
    requires Collide(a, b)
    ensures Contains(a, Max(a.x, b.x), Max(a.y, b.y)) && Contains(b, Max(a.x, b.x), Max(a.y, b.y))
  {
  }

  /** ...and rectangles with a point in common collide. */
  lemma CommonPointCollides(a: Entity, b: Entity, px: int, py: int)
    requires Contains(a, px, py) && Contains(b, px, py)
    ensures Collide(a, b)
  {
  }

  /** One tick of motion: the position advances by the velocity and nothing
      else changes. */
  function Move(e: Entity): (r: Entity)
    ensures r.(x := e.x, y := e.y) == e
    ensures r.x - e.x == e.dx && r.y - e.y == e.dy
  {
    e.(x := e.x + e.dx, y := e.y + e.dy)
  }

  /** Moving, then moving again with the velocity negated, returns the
      entity to where it started. */
  lemma MoveReversible(e: Entity)
    ensures var m := Move(e);
      Move(m.(dx := -m.dx, dy := -m.dy)) == e.(dx := -e.dx, dy := -e.dy)
  {
  }

  /** The four single-edge corrections: an entity that overflows an edge is
      pushed back by the overflow and the velocity of that axis is negated. */
  function ReflectBottom(e: Entity): Entity {
    if e.y + e.height > DisplayHeight then
      var overflow := e.y + e.height - DisplayHeight;
      e.(y := e.y - overflow, dy := -e.dy)
    else e
  }

  function ReflectRight(e: Entity): Entity {
    if e.x + e.width > DisplayWidth then
      var overflow := e.x + e.width - DisplayWidth;
      e.(x := e.x - overflow, dx := -e.dx)
    else e
  }

  function ReflectTop(e: Entity): Entity {
    if e.y < 0 then
      var overflow := -e.y;
      e.(y := e.y + overflow, dy := -e.dy)
    else e
  }

  function ReflectLeft(e: Entity): Entity {
    if e.x < 0 then
      var overflow := -e.x;
      e.(x := e.x + overflow, dx := -e.dx)
    else e
  }

  /** Reflection of a paddle on all four edges, checked bottom, right, top,
      left. The size never changes and speeds keep their magnitude. An entity
      already inside is returned as it is. When the size fits the field, each
      coordinate ends clamped into the field, and the velocity of an axis is
      negated exactly when that axis needed a correction. */
  function CornerCollision(e: Entity): (r: Entity)
    ensures r.width == e.width && r.height == e.height
    ensures Abs(r.dx) == Abs(e.dx) && Abs(r.dy) == Abs(e.dy)
    ensures InField(e) ==> r == e
    ensures 0 <= e.height <= DisplayHeight ==>
      && r.y == Clamp(e.y, 0, DisplayHeight - e.height)
      && (r.y == e.y ==> r.dy == e.dy)
      && (r.y != e.y ==> r.dy == -e.dy)
    ensures 0 <= e.width <= DisplayWidth ==>
      && r.x == Clamp(e.x, 0, DisplayWidth - e.width)
      && (r.x == e.x ==> r.dx == e.dx)
      && (r.x != e.x ==> r.dx == -e.dx)
  {
    ReflectLeft(ReflectTop(ReflectRight(ReflectBottom(e))))
  }

  /** An entity whose size fits the field ends inside it. */
  lemma CornerCollisionKeepsInField(e: Entity)
    requires FitsField(e)
    ensures InField(CornerCollision(e))
  {
  }

  /** Applying the reflection twice is the same as applying it once. */
  lemma CornerCollisionIdempotent(e: Entity)
    requires FitsField(e)
    ensures CornerCollision(CornerCollision(e)) == CornerCollision(e)
  {
    CornerCollisionKeepsInField(e);
  }

  /** The size precondition is necessary: an entity taller than the field
      ends at the top edge and still overflows the bottom, and when the
      bottom check fires both vertical checks fire, so the vertical speed is
      negated twice and comes back unchanged. */
  lemma CornerCollisionOversized(e: Entity)
    requires e.height > DisplayHeight
    ensures CornerCollision(e).y == 0
    ensures !InField(CornerCollision(e))
    ensures e.y + e.height > DisplayHeight ==> CornerCollision(e).dy == e.dy
  {
  }

  /** The same holds horizontally: an entity wider than the field ends at
      the left edge and still overflows the right one, and when the right
      check fires both horizontal checks fire, so dx comes back unchanged.
      The ball reflection, made of the same two checks, also ends at x = 0. */
  lemma CornerCollisionTooWide(e: Entity)
    requires e.width > DisplayWidth
    ensures CornerCollision(e).x == 0
    ensures !InField(CornerCollision(e))
    ensures e.x + e.width > DisplayWidth ==> CornerCollision(e).dx == e.dx
    ensures BallCornerCollision(e).x == 0
  {
  }

  /** Reflection of a ball on the left and right edges only, checked right
      then left; only x and dx can change. */
  function BallCornerCollision(e: Entity): (r: Entity)
    ensures r.(x := e.x, dx := e.dx) == e
    ensures Abs(r.dx) == Abs(e.dx)
    ensures 0 <= e.x && e.x + e.width <= DisplayWidth ==> r == e
    ensures 0 <= e.width <= DisplayWidth ==>
      && r.x == Clamp(e.x, 0, DisplayWidth - e.width)
      && (r.x == e.x ==> r.dx == e.dx)
      && (r.x != e.x ==> r.dx == -e.dx)
  {
    ReflectLeft(ReflectRight(e))
  }

  /** The horizontal half of the paddle reflection is the ball reflection. */
  lemma CornerCollisionHorizontalIsBall(e: Entity)
    ensures CornerCollision(e).x == BallCornerCollision(e).x
    ensures CornerCollision(e).dx == BallCornerCollision(e).dx
  {
  }
}

=== FILE: paddles.dfy ===
/**
 The paddle controller: confinement of each paddle to its half of the field,
 damping of paddle velocity, growth of both paddles while the grow key is
 held, and acceleration from the held direction keys.
 */
module Paddles {
  import opened Geometry

  /** The half-line that separates the two paddles' halves of the field. */
  const FieldLimitY: int := DisplayHeight / 2

  /** Velocity added per tick by a held direction key. */
  const PlayerSpeed: int := 2

  /** Width and height added to both paddles per tick while grow is held. */
  const Growth: int := 2

  /** The largest speed a paddle reaches under damping and acceleration. */
  const MaxPaddleSpeed: int := 20

  /** The four direction keys of one player, as held during a tick. */
  datatype Controls = Controls(up: bool, left: bool, down: bool, right: bool)

  /** Keyboard state sampled once per tick: W/A/S/D steer the lower paddle,
      I/J/K/L steer the upper paddle, P grows both paddles. */
  datatype HeldKeys = HeldKeys(player1: Controls, player2: Controls, grow: bool)

  function Indicator(b: bool): int {
    if b then 1 else 0
  }

  /** `int *= 0.9` on a velocity component: the product is truncated toward
      zero. The contract characterises truncation toward zero of 9d/10:
      the result has the sign of d and is the integer of largest magnitude
      not exceeding 9|d|/10 in magnitude. */
  function Damp(d: int): (r: int)
    ensures 0 <= d ==> 0 <= r && 10 * r <= 9 * d < 10 * r + 10
    ensures d < 0 ==> r <= 0 && 10 * r - 10 < 9 * d <= 10 * r
  {
    if d >= 0 then 9 * d / 10 else -(9 * (-d) / 10)
  }

  /** Damping commutes with negation, so a reflected velocity damps to the
      reflection of the damped velocity. */
  lemma DampOdd(d: int)
    ensures Damp(-d) == -Damp(d)
  {
  }

  /** Damping strictly shrinks every non-zero velocity and never flips its
      sign, so an unsteered paddle comes to rest. */
  lemma DampShrinks(d: int)
    ensures Abs(Damp(d)) <= Abs(d)
    ensures d != 0 ==> Abs(Damp(d)) < Abs(d)
    ensures d > 0 ==> Damp(d) >= 0
    ensures d < 0 ==> Damp(d) <= 0
  {
  }

  /** Both velocity components damped; position and size untouched. */
  function DampEntity(e: Entity): (r: Entity)
    ensures r.(dx := e.dx, dy := e.dy) == e
    ensures r.dx == Damp(e.dx) && r.dy == Damp(e.dy)
    ensures Abs(r.dx) <= Abs(e.dx) && Abs(r.dy) <= Abs(e.dy)
  {
    e.(dx := Damp(e.dx), dy := Damp(e.dy))
  }

  /** The lower paddle (player 1) is pushed back below the half-line; dy is
      negated exactly when a correction happened, and nothing else changes. */
  function ConfineLower(e: Entity): (r: Entity)
    ensures r.y == Max(e.y, FieldLimitY)
    ensures r.(y := e.y, dy := e.dy) == e
    ensures r.y == e.y ==> r.dy == e.dy
    ensures r.y != e.y ==> r.dy == -e.dy
  {
    if e.y < FieldLimitY then
      var overflow := FieldLimitY - e.y;
      e.(y := e.y + overflow, dy := -e.dy)
    else e
  }

  /** The upper paddle (player 2) is pushed back above the half-line; dy is
      negated exactly when a correction happened, and nothing else changes. */
  function ConfineUpper(e: Entity): (r: Entity)
    ensures r.y + r.height == Min(e.y + e.height, FieldLimitY)
    ensures r.(y := e.y, dy := e.dy) == e
    ensures r.y == e.y ==> r.dy == e.dy
    ensures r.y != e.y ==> r.dy == -e.dy
  {
    if e.y + e.height > FieldLimitY then
      var overflow := e.y + e.height - FieldLimitY;
      e.(y := e.y - overflow, dy := -e.dy)
    else e
  }

  /** While the grow key is held the paddle gains Growth in each dimension;
      it never shrinks and nothing else changes. */
  function Grow(e: Entity, grow: bool): (r: Entity)
    ensures r.(width := e.width, height := e.height) == e
    ensures r.width - e.width == r.height - e.height == Growth * Indicator(grow)
  {
    if grow then e.(width := e.width + Growth, height := e.height + Growth) else e
  }

  /** Each held key adds PlayerSpeed to its velocity component (up and left
      subtract); opposite keys cancel and only the velocity changes. */
  function Accelerate(e: Entity, c: Controls): (r: Entity)
    ensures r.(dx := e.dx, dy := e.dy) == e
    ensures r.dx == e.dx + PlayerSpeed * (Indicator(c.right) - Indicator(c.left))
    ensures r.dy == e.dy + PlayerSpeed * (Indicator(c.down) - Indicator(c.up))
  {
    var e1 := if c.up then e.(dy := e.dy + -1 * PlayerSpeed) else e;
    var e2 := if c.left then e1.(dx := e1.dx + -1 * PlayerSpeed) else e1;
    var e3 := if c.down then e2.(dy := e2.dy + PlayerSpeed) else e2;
    if c.right then e3.(dx := e3.dx + PlayerSpeed) else e3
  }

  /** Both velocity components of the paddle are within MaxPaddleSpeed. */
  predicate SpeedBounded(e: Entity) {
    Abs(e.dx) <= MaxPaddleSpeed && Abs(e.dy) <= MaxPaddleSpeed
  }

  /** Damping then one tick of acceleration never takes a speed past
      MaxPaddleSpeed: 9/10 of 20 is 18 and the keys add at most 2. */
  lemma DampThenAccelerateBounded(e: Entity, c: Controls)
    requires SpeedBounded(e)
    ensures SpeedBounded(Accelerate(DampEntity(e), c))
  {
    DampShrinks(e.dx);
    DampShrinks(e.dy);
  }

  /** The velocity half of a paddle tick: damp, grow, then add the held
      keys. The position is kept. */
  function Steer(e: Entity, c: Controls, grow: bool): (r: Entity)
    ensures r.x == e.x && r.y == e.y
    ensures r.width == e.width + Growth * Indicator(grow)
    ensures r.height == e.height + Growth * Indicator(grow)
    ensures r.dx == Damp(e.dx) + PlayerSpeed * (Indicator(c.right) - Indicator(c.left))
    ensures r.dy == Damp(e.dy) + PlayerSpeed * (Indicator(c.down) - Indicator(c.up))
    ensures SpeedBounded(e) ==> SpeedBounded(r)
  {
    DampShrinks(e.dx);
    DampShrinks(e.dy);
    Accelerate(Grow(DampEntity(e), grow), c)
  }

  /** The horizontal half of a paddle tick does not depend on confinement:
      x moves and is clamped between the side edges, and dx is the
      reflected one, damped, plus the held keys. */
  lemma SteerHorizontal(e: Entity, confined: Entity, c: Controls, grow: bool)
    requires FitsField(e)
    requires confined.x == CornerCollision(Move(e)).x && confined.dx == CornerCollision(Move(e)).dx
    ensures var r := Steer(confined, c, grow);
      && r.x == Clamp(e.x + e.dx, 0, DisplayWidth - e.width)
      && r.dx == Damp(if r.x == e.x + e.dx then e.dx else -e.dx)
                 + PlayerSpeed * (Indicator(c.right) - Indicator(c.left))
  {
  }

  /** Reflection and confinement keep both speeds. */
  lemma ConfinedSpeed(e: Entity, confined: Entity)
    requires Abs(confined.dx) == Abs(e.dx) && Abs(confined.dy) == Abs(e.dy)
    ensures SpeedBounded(e) ==> SpeedBounded(confined)
  {
  }

  /** The vertical half of the lower paddle's tick: y moves, is clamped
      into the field and then raised to the half-line, and dy is negated
      once per correction, damped, plus the held keys. */
  lemma SteerLowerVertical(e: Entity, c: Controls, grow: bool)
    requires FitsField(e)
    ensures var r := Steer(ConfineLower(CornerCollision(Move(e))), c, grow);
      var ry := Clamp(e.y + e.dy, 0, DisplayHeight - e.height);
      var dy1 := if ry == e.y + e.dy then e.dy else -e.dy;
      && r.y == Max(ry, FieldLimitY)
      && r.dy == Damp(if r.y == ry then dy1 else -dy1)
                 + PlayerSpeed * (Indicator(c.down) - Indicator(c.up))
  {
  }

  /** The vertical half of the upper paddle's tick: y moves, is clamped
      into the field and then lowered to the half-line, and dy is negated
      once per correction, damped, plus the held keys. */
  lemma SteerUpperVertical(e: Entity, c: Controls, grow: bool)
    requires FitsField(e)
    ensures var r := Steer(ConfineUpper(CornerCollision(Move(e))), c, grow);
      var ry := Clamp(e.y + e.dy, 0, DisplayHeight - e.height);
      var dy1 := if ry == e.y + e.dy then e.dy else -e.dy;
      && r.y == Min(ry, FieldLimitY - e.height)
      && r.dy == Damp(if r.y == ry then dy1 else -dy1)
                 + PlayerSpeed * (Indicator(c.down) - Indicator(c.up))
  {
  }

  /** One tick of the lower paddle, in the order of the frame: move, reflect
      on the field edges, confine below the half-line, damp, grow, and
      accelerate from the held keys. The paddle ends below the half-line,
      its size grows only by the grow key, and its speed stays bounded. */
  function LowerPaddleTick(e: Entity, c: Controls, grow: bool): (r: Entity)
    ensures r.y >= FieldLimitY
    ensures r.width == e.width + Growth * Indicator(grow)
    ensures r.height == e.height + Growth * Indicator(grow)
    ensures 0 <= e.width <= DisplayWidth ==> 0 <= r.x && r.x + e.width <= DisplayWidth
    ensures 0 <= e.width <= DisplayWidth ==> r.x + r.width <= DisplayWidth + Growth * Indicator(grow)
    ensures 0 <= e.height <= FieldLimitY ==> r.y + e.height <= DisplayHeight
    ensures SpeedBounded(e) ==> SpeedBounded(r)
    // the paddle moves, is clamped into the field and below the half-line,
    // and its velocity is the reflected one damped, plus the held keys
    ensures FitsField(e) ==>
      && r.x == Clamp(e.x + e.dx, 0, DisplayWidth - e.width)
      && r.dx == Damp(if r.x == e.x + e.dx then e.dx else -e.dx)
                 + PlayerSpeed * (Indicator(c.right) - Indicator(c.left))
    ensures FitsField(e) ==>
      var ry := Clamp(e.y + e.dy, 0, DisplayHeight - e.height);
      var dy1 := if ry == e.y + e.dy then e.dy else -e.dy;
      && r.y == Max(ry, FieldLimitY)
      && r.dy == Damp(if r.y == ry then dy1 else -dy1)
                 + PlayerSpeed * (Indicator(c.down) - Indicator(c.up))
  {
    var reflected := CornerCollision(Move(e));
    var confined := ConfineLower(reflected);
    ConfinedSpeed(e, confined);
    if FitsField(e) then
      SteerHorizontal(e, confined, c, grow);
      SteerLowerVertical(e, c, grow);
      Steer(confined, c, grow)
    else
      Steer(confined, c, grow)
  }

  /** One tick of the upper paddle, same order as the lower one. The paddle
      ends above the half-line except for the growth of this very tick,
      which extends its bottom edge after confinement. */
  function UpperPaddleTick(e: Entity, c: Controls, grow: bool): (r: Entity)
    ensures r.y + r.height <= FieldLimitY + Growth * Indicator(grow)
    ensures r.width == e.width + Growth * Indicator(grow)
    ensures r.height == e.height + Growth * Indicator(grow)
    ensures 0 <= e.width <= DisplayWidth ==> 0 <= r.x && r.x + e.width <= DisplayWidth
    ensures 0 <= e.width <= DisplayWidth ==> r.x + r.width <= DisplayWidth + Growth * Indicator(grow)
    ensures 0 <= e.height <= FieldLimitY ==> 0 <= r.y
    ensures SpeedBounded(e) ==> SpeedBounded(r)
    // the paddle moves, is clamped into the field and above the half-line,
    // and its velocity is the reflected one damped, plus the held keys
    ensures FitsField(e) ==>
      && r.x == Clamp(e.x + e.dx, 0, DisplayWidth - e.width)
      && r.dx == Damp(if r.x == e.x + e.dx then e.dx else -e.dx)
                 + PlayerSpeed * (Indicator(c.right) - Indicator(c.left))
    ensures FitsField(e) ==>
      var ry := Clamp(e.y + e.dy, 0, DisplayHeight - e.height);
      var dy1 := if ry == e.y + e.dy then e.dy else -e.dy;
      && r.y == Min(ry, FieldLimitY - e.height)
      && r.dy == Damp(if r.y == ry then dy1 else -dy1)
                 + PlayerSpeed * (Indicator(c.down) - Indicator(c.up))
  {
    var reflected := CornerCollision(Move(e));
    var confined := ConfineUpper(reflected);
    ConfinedSpeed(e, confined);
    if FitsField(e) then
      SteerHorizontal(e, confined, c, grow);
      SteerUpperVertical(e, c, grow);
      Steer(confined, c, grow)
    else
      Steer(confined, c, grow)
  }
}
